=== FILE: README.md ===
# Veeam console install decision, modelled in Dafny

This project models the `veeam_console` resource of the Veeam cookbook. It covers
the `:install` action and its helper `perform_console_install`. It also models
the `win_friendly_path` helper of the spec support code.

The `:install` action runs through a fixed sequence of checks:

1. the host OS check;
2. the up-to-date decision for an installed console. A console counts as up to
   date unless the requested version is later than the installed version and
   also later than 9.5.3.0;
3. the .NET Framework release check (release 379893, .NET 4.5.2, or later);
4. the EULA check.

If all four pass, the action does the following in order:

- it declares the package directory;
- it fills in a missing package URL and checksum from the version tables;
- it names the staged installer file after the last segment of the URL;
- it plans four sub-resources: fetch and mount the media, run `msiexec`,
  unmount, and delete the staged file unless `keep_media` is set.

Modules:

- `Wrappers`: `Option` (a value that may be nil) and `Result`.
- `Strings`: Ruby's `split` with a one-character separator and its inverse
  `Join`, decimal numbers, and prefix, suffix and substring predicates.
- `Versions`: dotted numeric versions standing in for `Gem::Version`, with
  parsing, formatting and comparison. Segments compare numerically. A missing
  segment counts as zero.
- `WindowsHelper`: `win_friendly_path`.
- `Console`: the resource itself.
  - The host's answers are fields of `Environment`: the OS check, the registry
    and WMI queries, the URL and checksum tables, `win_clean_path` and the media
    locator.
  - The sub-resources are abstract `Step`s.
  - `InstallAction` is the action as a function of the properties and the
    environment. It returns an `Outcome`: `Skipped`, `Failed(error, discarded)`
    or `Planned(steps)`.
  - The class `ConsoleResource` holds the properties. Its method `ActionInstall`
    runs the action step by step. It overwrites `packageUrl` and
    `packageChecksum` in place, as the Ruby code does, and is proved equal to
    `InstallAction`.

A raise inside the action abandons the sub-resources it has already declared, because
the resource runs in Chef's compile-then-converge mode: it declares no `unified_mode`,
and this 2018-2020 cookbook targets Chef Infra Client releases before 18, which
do not default to unified mode.
`Failed` records them as `discarded`. This shows the code's order: the package
directory is declared (line 69) before the missing-URL error is raised (line 82).

Three points of the code's order are worth stating, and the model keeps them:

- The 9.5.3.0 cutoff is compared with the requested version, not the installed
  one (line 53).
- The skip decision sits between the OS check and the .NET check (lines 43-60),
  so a skip never raises a .NET or EULA error.
- The unmount is only declared as the sub-resource after the install block (line
  103). Whether it still runs after the install fails is up to the convergence
  engine.

## Model

| member | source | states |
|---|---|---|
| `Console.ConsoleResource.ActionInstall` | resources/console.rb:42-115 | the imperative action returns exactly `InstallAction` of its starting properties. It writes the looked-up URL and checksum into the resource only when it gets past the four gates without a URL, and changes nothing else |
| `Console.InstallAction` | resources/console.rb:42-115 | no ensures of its own; the action as a function. Pinned down by `GatesPassIff`, `OsCheckFirst`, `SkipRule`, `DotNetGate`, `EulaGate`, `PlannedIff`, `PlanShape`, `FailureFetchesNothing`, and equal to `ActionInstall` |
| `Console.Gate` | resources/console.rb:43-63 | no ensures of its own; the four gates in order. Pinned down by `GatesPassIff`, `OsCheckFirst`, `SkipRule`, `DotNetGate`, `EulaGate`, and equal to `CheckPrerequisites` |
| `Console.SkipDecision` | resources/console.rb:47-57 | no ensures of its own; the up-to-date decision. Pinned down by `SkipRule`, `SkipOnlyWhenInstalled`, `SkipBelowCutoffEvenWhenNewer`, `MalformedVersionFails` and `GatesPassIff`, which gives `Ok(false)` for an uninstalled console and for an upgrade |
| `Console.Plan` | resources/console.rb:65-114 | no ensures of its own; the steps after the gates. Pinned down by `PlanFailures`, `StagedInstallerFile`, `PlannedIff` and `PlanShape` |
| `Console.ResolvePackage` | resources/console.rb:75-79 | no ensures of its own; the URL and checksum lookup. Pinned down by `PackageUrlResolution` and by `ActionInstall`, which writes it in place |
| `Console.PackageName` | resources/console.rb:89 | no ensures of its own; `split('/').last`. Pinned down by `PackageNameIsLastSegment` and `FileJoinLastSegment` |
| `Console.FileJoin` | resources/console.rb:65 | no ensures of its own; `File.join`. Pinned down by `FileJoinOneSeparator` and `FileJoinLastSegment` |
| `Console.FileJoinOneSeparator` | resources/console.rb:65 | `File.join(dir, name)` starts with `dir`, ends with '/' and `name`, and is one character longer than `dir` plus `name` exactly when `dir` does not already end in '/' |
| `Console.FileJoinLastSegment` | resources/console.rb:65-90 | `File.join(dir, name)` starts with `dir`, and for a name without '/' its `split('/').last` is the name again, so the staged file keeps the package name |
| `Console.PackageSaveDir` | resources/console.rb:65 | no ensures of its own; the cleaned `<file_cache_path>/package`. Used by `PlanFailures` and `StagedInstallerFile` |
| `Console.MsiPath` | resources/console.rb:130 | no ensures of its own; `<media>\Backup\Shell.x64.msi`. Used by `PerformConsoleInstall` |
| `Console.MsiexecArgumentList` | resources/console.rb:131-132 | no ensures of its own; `' /qn /i ' + msi + ' ' + xtra`. `PerformConsoleInstall` proves its step-by-step build equal to it |
| `Versions.Compare` | resources/console.rb:50-53 | no ensures of its own; `Gem::Version#<=>` on numeric segments. Pinned down by `CompareReflexive`, `CompareAntisymmetric`, `CompareTransitive`, `CompareTrailingZero` and `EqualIffSameTrimmed` |
| `Versions.ParseVersion` | resources/console.rb:50-53 | no ensures of its own; `Gem::Version.new` on numeric strings. Pinned down by `ParseVersionSound`, `ParseVersionRefuses`, `ParseFormatRoundTrip`, `ParseCutoffLiteral` and the two comparison examples |
| `Strings.RubySplit` | resources/console.rb:89 | no ensures of its own; `String#split` with trailing empty fields dropped. Pinned down by `SplitLastIsLastSegment`, `SplitJoin` and `JoinSplit` |
| `Strings.Last` | resources/console.rb:89 | no ensures of its own; `Array#last`, nil on an empty array. Pinned down by `SplitLastIsLastSegment` |
| `Console.ConsoleResource.LookUpPackage` | resources/console.rb:75-79 | fills in the URL and checksum in place exactly as `ResolvePackage` does, and changes nothing else |
| `Console.ConsoleResource.DeclareSteps` | resources/console.rb:65-114 | the step-by-step declarations after the lookup return exactly `Plan` of the current properties |
| `Console.ConsoleResource.CheckPrerequisites` | resources/console.rb:43-63 | the imperative gate sequence (OS check, up-to-date decision, .NET, EULA) stops the action exactly where `Gate` says: with the same skip or the same error, and with nothing declared |
| `Console.ConsoleResource.constructor` | resources/console.rb:26-36 | a new resource has the given version and EULA answer, no URL, checksum or install directory, and `keep_media` false |
| `Console.SkipRule` | resources/console.rb:47-56 | for an installed console whose versions parse: the action is up to date if and only if the requested version is not later than the installed one or not later than 9.5.3.0 |
| `Console.SkipOnlyWhenInstalled` | resources/console.rb:47-57 | an up-to-date result implies the OS check passed, the console is installed, and both versions parsed; an uninstalled console is never skipped |
| `Console.MalformedVersionFails` | resources/console.rb:50-53 | for an installed console past the OS check, a requested version the model cannot parse makes the action fail with the "Malformed version number string" error; failing that, a malformed installed version does. Nothing is declared |
| `Console.SkipBelowCutoffEvenWhenNewer` | resources/console.rb:50-53 | installed 9.0.0.902 and requested 9.5.3.0 gives up to date, even though the request is newer |
| `Console.OsCheckFirst` | resources/console.rb:43 | a failing OS check is the action's error, raised before any sub-resource is declared |
| `Console.DotNetGate` | resources/console.rb:60 | after a non-skip decision, the action fails with the .NET message if and only if the release is below 379893 (so 379893 itself passes) |
| `Console.EulaGate` | resources/console.rb:63 | after the .NET check passes, the action fails with the EULA `ArgumentError` if and only if `accept_eula` is nil or false |
| `Console.PlanFailures` | resources/console.rb:65-90 | a failure after the gates has declared only the package directory, and it is either the missing-URL error or the `File.join` nil error |
| `Console.GatesPassIff` | resources/console.rb:43-63 | the action gets past the four gates if and only if the OS check passes, the console is not installed or the request is later than both the installed version and 9.5.3.0, the .NET release is at least 379893, and `accept_eula` is true |
| `Console.FailureFetchesNothing` | resources/console.rb:43-91 | no failure ever reaches the fetch. A gate failure declares nothing. A later failure declares only the package directory and implies that .NET and the EULA passed |
| `Console.PackageUrlResolution` | resources/console.rb:75-82 | a supplied URL is fetched with the supplied checksum. Without one, the URL and checksum come from the version tables. If neither gives a URL, the action fails with "You must provide a package URL or choose a valid version" before any fetch |
| `Console.PackageNameIsLastSegment` | resources/console.rb:89 | `split('/').last` is nil exactly when the URL is empty or all '/'. Otherwise it is the last non-empty '/'-separated segment |
| `Console.StagedInstallerFile` | resources/console.rb:65-91 | the fetched file is the cleaned `File.join` of the package directory and the URL's last non-empty segment. A URL with no such segment makes the action fail with `TypeError` |
| `Console.PlannedIff` | resources/console.rb:42-115 | an install is planned if and only if every gate passes and the resolved URL exists and has a character other than '/' |
| `Console.PlanShape` | resources/console.rb:91-114 | a plan needs the OS check and .NET check passed and the EULA true. It is always: create directory, fetch, run msiexec with the EULA accepted, unmount the fetched file. A fifth step deletes that file if and only if `keep_media` is false |
| `Console.ExtraArguments` | resources/console.rb:124-127 | the extra arguments always end with the `ACCEPT_THIRDPARTY_LICENSES="1"` fragment |
| `Console.ExtraArgumentsRoundTrip` | resources/console.rb:124-127 | the argument string can be decoded back into `accept_eula` and `install_dir`. The EULA fragment appears only for a non-nil answer, the quoted install directory (space before the closing quote) only for a non-nil directory, and the fragments keep their fixed order whatever the directory holds |
| `Console.InstallFailure` | resources/console.rb:133-135 | exit code 0 succeeds. Any other exit code raises an error whose message contains the exit code and the MSI path |
| `Console.ConsoleResource.PerformConsoleInstall` | resources/console.rb:118-139 | appending the fragments one at a time gives `' /qn /i ' + <media>\Backup\Shell.x64.msi + ' ' + ExtraArguments`. The run fails if and only if the exit code is non-zero |
| `Strings.SplitLastIsLastSegment` | resources/console.rb:89 | Ruby's `split(sep).last` on any string: nil if and only if the string is all separators. Otherwise a non-empty run without separators that starts the string or follows a separator, followed only by separators |
| `Strings.SplitJoin` | resources/console.rb:89 | splitting a join of separator-free fields gives back those fields |
| `Strings.JoinSplit` | resources/console.rb:89 | joining the fields of a split gives back the string |
| `Strings.NatToStringRoundTrip` | resources/console.rb:134 | reading back a decimal formatted number gives the number |
| `Strings.IntToStringInjective` | resources/console.rb:134 | different exit codes are written differently in decimal |
| `Console.InstallFailureIdentifiesRun` | resources/console.rb:133-135 | two failures with the same message had the same exit code and the same MSI path: the code is closed by the ']' that follows it, which a decimal never contains |
| `Versions.CompareReflexive` | resources/console.rb:50 | every version equals itself |
| `Versions.CompareAntisymmetric` | resources/console.rb:50 | swapping the operands flips the result |
| `Versions.CompareTransitive` | resources/console.rb:50-53 | "not later than" is transitive, and strict when one step is strict |
| `Versions.CompareTrailingZero` | resources/console.rb:50-53 | a trailing zero segment never changes a comparison |
| `Versions.EqualIffSameTrimmed` | resources/console.rb:50 | two versions are equal if and only if they agree once trailing zeros are removed |
| `Versions.ParseVersionSound` | resources/console.rb:50-53 | a parsed version of the empty string is 0. Otherwise it has one segment per '.'-field, each field non-empty, all digits and read in decimal |
| `Versions.ParseVersionRefuses` | resources/console.rb:50-53 | a string is malformed if and only if it is non-empty and has an empty or non-digit '.'-field |
| `Versions.ParseFormatRoundTrip` | resources/console.rb:50 | parsing the dotted spelling of a non-empty version gives that version back |
| `Versions.ParseCutoffLiteral` | resources/console.rb:53 | the literal "9.5.3.0" parses to segments 9, 5, 3, 0 |
| `Versions.ComparisonExampleGreater` | resources/console.rb:50-53 | "9.0.0.902" parses, and 9.5.3.0 is later than it |
| `Versions.ComparisonExampleLess` | resources/console.rb:50-53 | "1.0" parses, and it is earlier than 9.5.3.0 |
| `WindowsHelper.WinFriendlyPath` | spec/windows_helper.rb:58-60 | nil gives nil. A non-nil path gives a string of the same length with no '/' |
| `WindowsHelper.ReplaceSeparators` | spec/windows_helper.rb:59 | position by position, every '/' becomes '\' and every other character is unchanged |
| `WindowsHelper.WithoutSeparatorUnchanged` | spec/windows_helper.rb:59 | a path with no '/' is returned unchanged |
| `WindowsHelper.WinFriendlyPathIdempotent` | spec/windows_helper.rb:58-60 | applying the helper twice gives the same result as applying it once |

## Left out

- Host queries become inputs in `Environment`. These are `check_os_version`,
  `is_package_installed?`, `find_current_veeam_version`, `find_current_dotnet`,
  `find_package_url` and `find_package_checksum`, `win_clean_path`, and
  `get_media_installer_location`. They live in `Veeam::Helper` and the Windows
  helpers, which are not part of this model.
- Chef sub-resources are abstract `Step`s: `directory`, `iso_installer` (download
  and mount), `ruby_block`, `unmount_installer` and `file`. The convergence
  engine that runs them is not modelled, including what it does with later
  steps after a failed install.
- PowerShell, `msiexec` and `validate_powershell_out` are not modelled. The
  install is reduced to its exit code, and the raised error gets the kind
  `InstallerFailure`. `Write-Host` is not modelled. PowerShell quoting is not
  modelled either: the argument list is the text the script would build, so an
  install directory containing `'` is not treated specially.
- Logging (`Chef::Log`) is not modelled.
- `Versions.ParseVersion` models `Gem::Version` for numeric segments only. It
  leaves out prerelease and letter segments, surrounding whitespace and nil
  input. The empty string is version 0. The model refuses every other string with
  a non-numeric field with the "Malformed version number string" `ArgumentError`,
  including strings `Gem::Version` accepts, such as "1.a", "1.0-rc1", " 1.0 " and
  "   ". For an installed console the modelled action then fails where the
  cookbook goes on.
- `Console.FileJoin` models Ruby's `File.join` only for '/' at the join point.
  The Windows backslash handling of `File.join` is not modelled.
- `Console.ExtraArguments` states that the licence fragment is appended once and
  last, through the round trip and the suffix. It does not count substring
  occurrences, because `install_dir` is free text and could itself contain the
  fragment's text.
- The Chef `required: true` validation of `version` and `accept_eula` happens
  before the action runs and is not modelled. The action's own nil check on
  `accept_eula` is modelled.
- The `package_name` and `share_path` properties are never read by the action
  and are not modelled.
- `mock_windows_system_framework` and `win_clean_path` in
  `spec/windows_helper.rb` are test stubbing and a framework call; neither is
  modelled.

=== FILE: console.dfy ===
/**
 * The `veeam_console` resource: the `:install` action, which decides whether
 * the Backup & Replication console must be installed or upgraded, checks its
 * prerequisites in a fixed order, and plans the sub-resources that fetch the
 * media, run `msiexec`, unmount the media and delete the staged file; and
 * `perform_console_install`, which assembles the `msiexec` argument list.
 *
 * Everything the action asks of the host (the OS check, the registry and WMI
 * queries, the version-to-URL tables, path cleaning, locating the installer in
 * the mounted media) is an input held by `Environment`. The sub-resources the
 * action declares are abstract `Step`s; running them is the framework's work.
 */
module Console {
  import opened Wrappers
  import opened Strings
  import opened Versions

  // ---------------------------------------------------------------------------
  // Data model
  // ---------------------------------------------------------------------------

  datatype ErrorKind =
    | ArgumentError
    | RuntimeError
    | TypeError
    /** The PowerShell `throw` of the installer script, surfaced by the script runner. */
    | InstallerFailure

  /** A raised exception: its class and its message. */
  datatype Error = Error(kind: ErrorKind, message: string)

  /** The resource's properties that the action reads (`package_name` and `share_path` are never read). */
  datatype Properties = Properties(
    version: string,
    packageUrl: Option<string>,
    packageChecksum: Option<string>,
    acceptEula: Option<bool>,
    installDir: Option<string>,
    keepMedia: bool)

  /** What the host answers when the action asks. */
  datatype Environment = Environment(
    /** `check_os_version(node)`: None when the OS is supported, else the error it raises. */
    osCheck: Option<Error>,
    /** `is_package_installed?('Veeam Backup & Replication Console')` */
    consoleInstalled: bool,
    /** `find_current_veeam_version('Veeam Backup & Replication Console')` */
    installedVersion: string,
    /** `find_current_dotnet`: the .NET Framework release number. */
    dotnetRelease: int,
    /** `find_package_url(version)` and `find_package_checksum(version)` */
    packageUrlFor: string -> Option<string>,
    packageChecksumFor: string -> Option<string>,
    /** `Chef::Config[:file_cache_path]` */
    fileCachePath: string,
    /** `win_clean_path` */
    cleanPath: string -> string,
    /** `get_media_installer_location(installer_file_name)`, asked when the install step runs. */
    mediaLocation: string -> string)

  /** A sub-resource declared by the action, in declaration order. */
  datatype Step =
    /** `directory package_save_dir` with action `:create` */
    | CreateDirectory(path: string)
    /** `iso_installer`: download the media to `installerFile` and mount it. */
    | Fetch(installerFile: string, url: string, checksum: Option<string>)
    /** The `ruby_block` that runs `msiexec.exe` with this argument list. */
    | RunInstaller(argumentList: string)
    /** `unmount_installer` */
    | Unmount(installerFile: string)
    /** `file installer_file_name` with action `:delete` */
    | DeleteFile(path: string)

  /**
   * How the action ends. `Skipped` is the early `return false` (up to date).
   * `Failed` is a raise; `discarded` lists the sub-resources declared before
   * it, which never run because the action did not complete (Chef's
   * compile-then-converge mode, which this resource uses on Chef Infra Client
   * releases before 18, as it declares no `unified_mode`). `Planned` lists the
   * sub-resources the framework goes on to converge, in order.
   */
  datatype Outcome =
    | Skipped
    | Failed(error: Error, discarded: seq<Step>)
    | Planned(steps: seq<Step>)

  // ---------------------------------------------------------------------------
  // Constants of the resource
  // ---------------------------------------------------------------------------

  /**
   * On an installed console, a request up to this version is reported up to
   * date (line 53); such upgrades go through update files instead.
   */
  const UpgradeCutoff: Version := [9, 5, 3, 0]

  /** Release number of .NET Framework 4.5.2. */
  const MinDotNetRelease: int := 379893

  const DotNetMessage: string :=
    "The Veeam Backup and Recovery Server requires that Microsoft .NET Framework 4.5.2 or higher be installed.  Please install the Veeam pre-requisites"

  const EulaMessage: string :=
    "The Veeam Backup and Recovery EULA must be accepted.  Please set the node attribute ['veeam']['console']['accept_eula'] to 'true' "

  const NoPackageUrlMessage: string := "You must provide a package URL or choose a valid version"

  /** What `File.join(dir, nil)` raises when the URL has no non-empty '/'-separated segment. */
  const NilJoinError: Error := Error(TypeError, "no implicit conversion of nil into String")

  /** What `Gem::Version.new` raises on a string that is not a version. */
  function MalformedVersion(s: string): Error
  {
    Error(ArgumentError, "Malformed version number string " + s)
  }

  // ---------------------------------------------------------------------------
  // The skip decision and the prerequisite gates
  // ---------------------------------------------------------------------------

  /**
   * Lines 47-57: true when the action returns early as up to date. Only an
   * installed console can be up to date: when the requested version is not
   * later than the installed one, or not later than 9.5.3.0.
   */
  function SkipDecision(p: Properties, env: Environment): Result<bool, Error>
  {
    if !env.consoleInstalled then Ok(false)
    else match ParseVersion(p.version)
      case None => Err(MalformedVersion(p.version))
      case Some(requested) =>
        match ParseVersion(env.installedVersion)
        case None => Err(MalformedVersion(env.installedVersion))
        case Some(installed) =>
          if Compare(requested, installed) != Greater then Ok(true)
          else Ok(Compare(requested, UpgradeCutoff) != Greater)
  }

  /**
   * Lines 43-63, in order: the OS check, the skip decision, the .NET release,
   * the EULA. Some(outcome) when one of them ends the action, None when the
   * action goes on to create the package directory.
   */
  function Gate(p: Properties, env: Environment): Option<Outcome>
  {
    if env.osCheck.Some? then Some(Failed(env.osCheck.value, []))
    else match SkipDecision(p, env)
      case Err(e) => Some(Failed(e, []))
      case Ok(true) => Some(Skipped)
      case Ok(false) =>
        if env.dotnetRelease < MinDotNetRelease then Some(Failed(Error(RuntimeError, DotNetMessage), []))
        else if p.acceptEula.None? || p.acceptEula == Some(false) then Some(Failed(Error(ArgumentError, EulaMessage), []))
        else None
  }

  // ---------------------------------------------------------------------------
  // Package location
  // ---------------------------------------------------------------------------

  /** Ruby's `File.join(dir, name)` for a name that does not start with '/'. */
  function FileJoin(dir: string, name: string): string
  {
    if dir != [] && dir[|dir| - 1] == '/' then dir + name else dir + "/" + name
  }

  /**
   * `File.join` keeps `dir` as it is and puts `name` after it as the last
   * segment, with a '/' between them unless `dir` already ends in one.
   */
  lemma FileJoinLastSegment(dir: string, name: string)
    requires name != [] && '/' !in name
    ensures HasPrefix(FileJoin(dir, name), dir)
    ensures PackageName(FileJoin(dir, name)) == Some(name)
  {
    var r := FileJoin(dir, name);
    var x := if dir != [] && dir[|dir| - 1] == '/' then dir[..|dir| - 1] else dir;
    assert r == x + ['/'] + name;
    SplitAppendField(x, name, '/');
  }

  /**
   * `File.join` puts exactly one '/' between `dir` and `name`: it keeps `dir`,
   * ends with '/' and `name`, and adds a character only when `dir` does not
   * already end in '/' ("a/" and "b" give "a/b", not "a//b").
   */
  lemma FileJoinOneSeparator(dir: string, name: string)
    ensures HasPrefix(FileJoin(dir, name), dir)
    ensures HasSuffix(FileJoin(dir, name), "/" + name)
    ensures |FileJoin(dir, name)| == |dir| + |name| + (if HasSuffix(dir, "/") then 0 else 1)
  {
    var r := FileJoin(dir, name);
    if dir != [] && dir[|dir| - 1] == '/' {
      assert HasSuffix(dir, "/");
      assert r == dir[..|dir| - 1] + ("/" + name);
    } else {
      assert !HasSuffix(dir, "/");
      assert r == dir + ("/" + name);
    }
  }

  /** Line 65: `<file_cache_path>/package`, cleaned. */
  function PackageSaveDir(env: Environment): string
  {
    env.cleanPath(FileJoin(env.fileCachePath, "package"))
  }

  /** Lines 75-79: a supplied URL is kept with its checksum; otherwise both come from the version tables. */
  function ResolvePackage(p: Properties, env: Environment): Properties
  {
    if p.packageUrl.Some? then p
    else p.(packageUrl := env.packageUrlFor(p.version), packageChecksum := env.packageChecksumFor(p.version))
  }

  /** Line 89: `package_url.split('/').last`. */
  function PackageName(url: string): Option<string>
  {
    Last(RubySplit(url, '/'))
  }

  /** `n` is the last non-empty '/'-separated segment of `url`. */
  ghost predicate IsLastSegment(url: string, n: string)
  {
    n != [] && '/' !in n && exists k :: TrailingSegmentAt(url, n, k, '/')
  }

  /** The staged file name is the URL's last non-empty segment; there is none exactly when the URL is all '/'. */
  lemma PackageNameIsLastSegment(url: string)
    ensures PackageName(url).None? <==> forall i :: 0 <= i < |url| ==> url[i] == '/'
    ensures PackageName(url).Some? ==> IsLastSegment(url, PackageName(url).value)
  {
    SplitLastIsLastSegment(url, '/');
  }

  // ---------------------------------------------------------------------------
  // perform_console_install: the msiexec argument list
  // ---------------------------------------------------------------------------

  function EulaFragment(accepted: bool): string
  {
    " ACCEPTEULA=\"" + (if accepted then "YES" else "NO") + "\" "
  }

  const InstallDirOpen: string := " INSTALLDIR=\""
  const InstallDirClose: string := " \" "

  function InstallDirFragment(dir: string): string
  {
    InstallDirOpen + dir + InstallDirClose
  }

  const LicenseFragment: string := " ACCEPT_THIRDPARTY_LICENSES=\"1\" "

  /**
   * Lines 124-127: `xtra_arguments`, the EULA answer when `accept_eula` is set,
   * the quoted install directory when `install_dir` is set, and the
   * third-party licence flag always, in that order.
   */
  function ExtraArguments(acceptEula: Option<bool>, installDir: Option<string>): (xtra: string)
    ensures HasSuffix(xtra, LicenseFragment)
  {
    OptionalEula(acceptEula) + OptionalInstallDir(installDir) + LicenseFragment
  }

  /** The EULA fragment, when `accept_eula` is not nil. */
  function OptionalEula(acceptEula: Option<bool>): string
  {
    if acceptEula.Some? then EulaFragment(acceptEula.value) else ""
  }

  /** The install-directory fragment, when there is one. */
  function OptionalInstallDir(installDir: Option<string>): string
  {
    if installDir.Some? then InstallDirFragment(installDir.value) else ""
  }

  /** Reads the part after the EULA fragment back: the install directory, if any, then the licence flag. */
  function ParseInstallDir(rest: string): Option<Option<string>>
  {
    if !HasSuffix(rest, LicenseFragment) then None
    else
      var middle := rest[..|rest| - |LicenseFragment|];
      if middle == [] then Some(None)
      else if |InstallDirOpen| + |InstallDirClose| <= |middle|
              && HasPrefix(middle, InstallDirOpen) && HasSuffix(middle, InstallDirClose)
      then Some(Some(middle[|InstallDirOpen|..|middle| - |InstallDirClose|]))
      else None
  }

  /**
   * Reads an extra-argument string back into the two optional properties it
   * was built from; None when the string does not have the builder's shape.
   */
  function ParseExtraArguments(s: string): Option<(Option<bool>, Option<string>)>
  {
    var (eula, rest) :=
      if HasPrefix(s, EulaFragment(true)) then (Some(true), s[|EulaFragment(true)|..])
      else if HasPrefix(s, EulaFragment(false)) then (Some(false), s[|EulaFragment(false)|..])
      else (None, s);
    match ParseInstallDir(rest)
    case None => None
    case Some(installDir) => Some((eula, installDir))
  }

  lemma ParseInstallDirRoundTrip(installDir: Option<string>)
    ensures ParseInstallDir(OptionalInstallDir(installDir) + LicenseFragment) == Some(installDir)
  {
    var rest := OptionalInstallDir(installDir) + LicenseFragment;
    var middle := rest[..|rest| - |LicenseFragment|];
    assert HasSuffix(rest, LicenseFragment);
    assert middle == OptionalInstallDir(installDir);
    if installDir.Some? {
      var d := installDir.value;
      assert middle == InstallDirOpen + d + InstallDirClose;
      assert HasPrefix(middle, InstallDirOpen);
      assert HasSuffix(middle, InstallDirClose);
      assert middle[|InstallDirOpen|..|middle| - |InstallDirClose|] == d;
    }
  }

  /** Neither the install-directory fragment nor the licence flag starts like a EULA fragment. */
  lemma NoEulaPrefix(installDir: Option<string>, accepted: bool)
    ensures !HasPrefix(OptionalInstallDir(installDir) + LicenseFragment, EulaFragment(accepted))
  {
    var rest := OptionalInstallDir(installDir) + LicenseFragment;
    if installDir.Some? {
      assert rest[1] == 'I';
    } else {
      assert rest[7] == '_';
    }
  }

  /** After a EULA fragment, the parser reads that answer and goes on with the rest. */
  lemma ParseAfterEula(accepted: bool, rest: string, installDir: Option<string>)
    requires ParseInstallDir(rest) == Some(installDir)
    ensures ParseExtraArguments(EulaFragment(accepted) + rest) == Some((Some(accepted), installDir))
  {
    var s := EulaFragment(accepted) + rest;
    assert s[|EulaFragment(accepted)|..] == rest;
    if !accepted {
      assert s[13] == 'N' && EulaFragment(true)[13] == 'Y';
    }
  }

  /** Without a EULA fragment in front, the parser reads no answer and goes on with the whole string. */
  lemma ParseWithoutEula(rest: string, installDir: Option<string>)
    requires !HasPrefix(rest, EulaFragment(true)) && !HasPrefix(rest, EulaFragment(false))
    requires ParseInstallDir(rest) == Some(installDir)
    ensures ParseExtraArguments(rest) == Some((None, installDir))
  {
  }

  /**
   * The extra arguments determine the properties they were built from: the
   * fragments never run into each other, whatever the install directory holds.
   */
  lemma ExtraArgumentsRoundTrip(acceptEula: Option<bool>, installDir: Option<string>)
    ensures ParseExtraArguments(ExtraArguments(acceptEula, installDir)) == Some((acceptEula, installDir))
  {
    var rest := OptionalInstallDir(installDir) + LicenseFragment;
    ParseInstallDirRoundTrip(installDir);
    ExtraArgumentsShape(acceptEula, installDir);
    if acceptEula.Some? {
      ParseAfterEula(acceptEula.value, rest, installDir);
    } else {
      assert OptionalEula(acceptEula) + rest == rest;
      ParseRestRoundTrip(installDir);
    }
  }

  lemma ExtraArgumentsShape(acceptEula: Option<bool>, installDir: Option<string>)
    ensures ExtraArguments(acceptEula, installDir) == OptionalEula(acceptEula) + (OptionalInstallDir(installDir) + LicenseFragment)
  {
    AppendAssociative(OptionalEula(acceptEula), OptionalInstallDir(installDir), LicenseFragment);
  }

  lemma ParseRestRoundTrip(installDir: Option<string>)
    ensures ParseExtraArguments(OptionalInstallDir(installDir) + LicenseFragment) == Some((None, installDir))
  {
    var rest := OptionalInstallDir(installDir) + LicenseFragment;
    ParseInstallDirRoundTrip(installDir);
    NoEulaPrefix(installDir, true);
    NoEulaPrefix(installDir, false);
    ParseWithoutEula(rest, installDir);
  }

  /** Line 130: the MSI inside the located media. */
  function MsiPath(installMediaPath: string): string
  {
    installMediaPath + "\\Backup\\Shell.x64.msi"
  }

  /** Line 132: `' /qn /i ' + installer + ' ' + xtra_arguments`. */
  function MsiexecArgumentList(msiPath: string, xtra: string): string
  {
    " /qn /i " + msiPath + " " + xtra
  }

  /** Line 134: the text of the error thrown for a non-zero exit code. */
  function InstallFailureMessage(msiPath: string, exitCode: int): string
  {
    FailureHead + IntToString(exitCode) + FailureMiddle + msiPath
  }

  const FailureHead: string := "The install failed with ExitCode ["
  const FailureMiddle: string := "].  The package is "

  /**
   * Lines 133-135: a zero exit code succeeds; any other raises an error whose
   * message holds both the exit code and the MSI path.
   */
  function InstallFailure(msiPath: string, exitCode: int): (r: Option<Error>)
    ensures r.None? <==> exitCode == 0
    ensures r.Some? ==>
      && r.value.kind == InstallerFailure
      && Contains(r.value.message, IntToString(exitCode))
      && Contains(r.value.message, msiPath)
  {
    if exitCode == 0 then None
    else
      var message := InstallFailureMessage(msiPath, exitCode);
      var code := IntToString(exitCode);
      assert OccursAt(message, code, |FailureHead|);
      assert OccursAt(message, msiPath, |FailureHead| + |code| + |FailureMiddle|);
      Some(Error(InstallerFailure, message))
  }

  /**
   * The failure message identifies the run: two failures with the same message
   * had the same exit code and the same MSI path. The code is delimited by the
   * ']' that follows it, which a decimal number never contains.
   */
  lemma InstallFailureIdentifiesRun(msiA: string, codeA: int, msiB: string, codeB: int)
    requires InstallFailure(msiA, codeA).Some?
    requires InstallFailure(msiA, codeA) == InstallFailure(msiB, codeB)
    ensures codeA == codeB && msiA == msiB
  {
    var a, b := IntToString(codeA), IntToString(codeB);
    var rest := FailureMiddle[1..];
    var m := InstallFailureMessage(msiA, codeA);
    assert m == InstallFailureMessage(msiB, codeB);
    assert FailureMiddle == [']'] + rest;
    assert m[|FailureHead|..] == a + [']'] + (rest + msiA);
    assert m[|FailureHead|..] == b + [']'] + (rest + msiB);
    IntToStringAlphabet(codeA, ']');
    IntToStringAlphabet(codeB, ']');
    DelimitedPrefixUnique(a, b, rest + msiA, rest + msiB, ']');
    IntToStringInjective(codeA, codeB);
    assert msiA == m[|FailureHead| + |a| + |FailureMiddle|..] == msiB;
  }

  // ---------------------------------------------------------------------------
  // action :install
  // ---------------------------------------------------------------------------

  /** Lines 65-114, once the gates have passed, on the properties after the URL lookup. */
  function Plan(r: Properties, env: Environment): Outcome
  {
    var saveDir := PackageSaveDir(env);
    var declared := [CreateDirectory(saveDir)];
    if r.packageUrl.None? then Failed(Error(ArgumentError, NoPackageUrlMessage), declared)
    else match PackageName(r.packageUrl.value)
      case None => Failed(NilJoinError, declared)
      case Some(name) =>
        var file := env.cleanPath(FileJoin(saveDir, name));
        var install := MsiexecArgumentList(MsiPath(env.mediaLocation(file)), ExtraArguments(r.acceptEula, r.installDir));
        Planned(declared
          + [Fetch(file, r.packageUrl.value, r.packageChecksum), RunInstaller(install), Unmount(file)]
          + (if r.keepMedia then [] else [DeleteFile(file)]))
  }

  /** The whole `:install` action on the properties it starts with. */
  function InstallAction(p: Properties, env: Environment): Outcome
  {
    match Gate(p, env)
    case Some(o) => o
    case None => Plan(ResolvePackage(p, env), env)
  }

  // ---------------------------------------------------------------------------
  // What the action promises
  // ---------------------------------------------------------------------------

  /** The failures after the gates happen once the package directory has been declared, and only then. */
  lemma PlanFailures(r: Properties, env: Environment)
    ensures Plan(r, env).Failed? ==>
      && Plan(r, env).discarded == [CreateDirectory(PackageSaveDir(env))]
      && (Plan(r, env).error == Error(ArgumentError, NoPackageUrlMessage) || Plan(r, env).error == NilJoinError)
  {
  }

  /**
   * An installed console is left alone unless the requested version is later
   * than both the installed version and 9.5.3.0; nothing checked after the
   * skip decision can turn a skip into an error.
   */
  lemma SkipRule(p: Properties, env: Environment, requested: Version, installed: Version)
    requires env.osCheck.None? && env.consoleInstalled
    requires ParseVersion(p.version) == Some(requested) && ParseVersion(env.installedVersion) == Some(installed)
    ensures InstallAction(p, env) == Skipped <==>
      (Compare(requested, installed) != Greater || Compare(requested, UpgradeCutoff) != Greater)
  {
  }

  /** Only an installed console with readable versions is ever reported up to date. */
  lemma SkipOnlyWhenInstalled(p: Properties, env: Environment)
    requires InstallAction(p, env) == Skipped
    ensures env.osCheck.None? && env.consoleInstalled
    ensures ParseVersion(p.version).Some? && ParseVersion(env.installedVersion).Some?
  {
  }

  /** Installed 9.0.0.902, requested 9.5.3.0: newer, but not past the cutoff, so up to date. */
  lemma SkipBelowCutoffEvenWhenNewer(p: Properties, env: Environment)
    requires env.osCheck.None? && env.consoleInstalled
    requires p.version == "9.5.3.0" && env.installedVersion == "9.0.0.902"
    ensures InstallAction(p, env) == Skipped
  {
    ParseCutoffLiteral();
    ComparisonExampleGreater();
    CompareReflexive(UpgradeCutoff);
  }

  /**
   * Lines 50 and 53: for an installed console, `Gem::Version.new` raises on a
   * malformed requested version, and then on a malformed installed version,
   * before the .NET check and with nothing declared.
   */
  lemma MalformedVersionFails(p: Properties, env: Environment)
    requires env.osCheck.None? && env.consoleInstalled
    ensures ParseVersion(p.version).None? ==>
      InstallAction(p, env) == Failed(MalformedVersion(p.version), [])
    ensures ParseVersion(p.version).Some? && ParseVersion(env.installedVersion).None? ==>
      InstallAction(p, env) == Failed(MalformedVersion(env.installedVersion), [])
  {
  }

  /** The OS check comes first: when it fails, nothing else is consulted. */
  lemma OsCheckFirst(p: Properties, env: Environment)
    requires env.osCheck.Some?
    ensures InstallAction(p, env) == Failed(env.osCheck.value, [])
  {
  }

  /** Past the skip decision, a .NET release below 379893 fails the action; 379893 itself passes. */
  lemma DotNetGate(p: Properties, env: Environment)
    requires env.osCheck.None? && SkipDecision(p, env) == Ok(false)
    ensures InstallAction(p, env) == Failed(Error(RuntimeError, DotNetMessage), []) <==>
      env.dotnetRelease < MinDotNetRelease
  {
  }

  /** Past the .NET check, a EULA that is nil or false fails the action. */
  lemma EulaGate(p: Properties, env: Environment)
    requires env.osCheck.None? && SkipDecision(p, env) == Ok(false) && env.dotnetRelease >= MinDotNetRelease
    ensures InstallAction(p, env) == Failed(Error(ArgumentError, EulaMessage), []) <==>
      p.acceptEula != Some(true)
  {
    if p.acceptEula == Some(true) {
      PlanFailures(ResolvePackage(p, env), env);
    } else if p.acceptEula.Some? {
      assert p.acceptEula.value == false;
    }
  }

  /**
   * When the action gets past the gates: the OS check passes; the console is
   * not installed, or both versions parse and the request is later than both
   * the installed version and 9.5.3.0 (an upgrade); .NET 4.5.2 or later is
   * present; and the EULA is accepted.
   */
  lemma GatesPassIff(p: Properties, env: Environment)
    ensures Gate(p, env).None? <==>
      && env.osCheck.None?
      && (|| !env.consoleInstalled
          || (&& ParseVersion(p.version).Some?
              && ParseVersion(env.installedVersion).Some?
              && Compare(ParseVersion(p.version).value, ParseVersion(env.installedVersion).value) == Greater
              && Compare(ParseVersion(p.version).value, UpgradeCutoff) == Greater))
      && env.dotnetRelease >= MinDotNetRelease
      && p.acceptEula == Some(true)
  {
    if p.acceptEula.Some? && p.acceptEula.value {
      assert p.acceptEula == Some(true);
    }
  }

  /**
   * No failure fetches anything: the gate failures come before any
   * sub-resource, and the two later failures (no URL, no file name) come
   * after the package directory only.
   */
  lemma FailureFetchesNothing(p: Properties, env: Environment)
    requires InstallAction(p, env).Failed?
    ensures var o := InstallAction(p, env);
      o.discarded == [] || (
        && o.discarded == [CreateDirectory(PackageSaveDir(env))]
        && (o.error == Error(ArgumentError, NoPackageUrlMessage) || o.error == NilJoinError)
        && env.dotnetRelease >= MinDotNetRelease && p.acceptEula == Some(true))
  {
    if Gate(p, env).None? {
      var o := InstallAction(p, env);
      PlanFailures(ResolvePackage(p, env), env);
      assert o == Plan(ResolvePackage(p, env), env);
      assert o.discarded == [CreateDirectory(PackageSaveDir(env))];
      assert o.error == Error(ArgumentError, NoPackageUrlMessage) || o.error == NilJoinError;
      assert env.dotnetRelease >= MinDotNetRelease;
      assert p.acceptEula.Some?;
      assert p.acceptEula.value;
    }
  }

  /**
   * Once the gates pass: a supplied URL is fetched with its own checksum;
   * otherwise the version tables give both; with neither, the action fails
   * for want of a URL before anything is fetched.
   */
  lemma PackageUrlResolution(p: Properties, env: Environment)
    requires Gate(p, env).None?
    ensures var url := if p.packageUrl.Some? then p.packageUrl else env.packageUrlFor(p.version);
      var checksum := if p.packageUrl.Some? then p.packageChecksum else env.packageChecksumFor(p.version);
      && (url.None? ==>
            InstallAction(p, env) == Failed(Error(ArgumentError, NoPackageUrlMessage), [CreateDirectory(PackageSaveDir(env))]))
      && (InstallAction(p, env).Planned? ==>
            url.Some? && InstallAction(p, env).steps[1] == Fetch(InstallAction(p, env).steps[1].installerFile, url.value, checksum))
  {
  }

  /**
   * The media is staged under the package directory, named after the last
   * non-empty '/'-separated segment of the URL; a URL without one (empty, or
   * all '/') makes `File.join` raise before anything is fetched.
   */
  lemma StagedInstallerFile(p: Properties, env: Environment)
    requires Gate(p, env).None? && ResolvePackage(p, env).packageUrl.Some?
    ensures var url := ResolvePackage(p, env).packageUrl.value;
      && ((forall i :: 0 <= i < |url| ==> url[i] == '/') <==> InstallAction(p, env) == Failed(NilJoinError, [CreateDirectory(PackageSaveDir(env))]))
      && (InstallAction(p, env).Planned? ==>
            exists name :: IsLastSegment(url, name)
              && InstallAction(p, env).steps[1].installerFile == env.cleanPath(FileJoin(PackageSaveDir(env), name)))
  {
    PackageNameIsLastSegment(ResolvePackage(p, env).packageUrl.value);
  }

  /**
   * The action plans an install exactly when every gate passes, a URL is
   * known after the lookup, and that URL has a character other than '/'.
   */
  lemma PlannedIff(p: Properties, env: Environment)
    ensures var url := ResolvePackage(p, env).packageUrl;
      InstallAction(p, env).Planned? <==>
        Gate(p, env).None? && url.Some? && exists i :: 0 <= i < |url.value| && url.value[i] != '/'
  {
    var url := ResolvePackage(p, env).packageUrl;
    if url.Some? {
      PackageNameIsLastSegment(url.value);
    }
  }

  /**
   * A planned install always has the same shape: create the package
   * directory, fetch, run msiexec with the EULA accepted, unmount, and then
   * delete the staged file exactly when `keep_media` is false.
   */
  lemma PlanShape(p: Properties, env: Environment)
    requires InstallAction(p, env).Planned?
    ensures var steps := InstallAction(p, env).steps;
      && env.osCheck.None? && env.dotnetRelease >= MinDotNetRelease && p.acceptEula == Some(true)
      && |steps| == (if p.keepMedia then 4 else 5)
      && steps[0] == CreateDirectory(PackageSaveDir(env))
      && steps[1].Fetch?
      && steps[2] == RunInstaller(MsiexecArgumentList(MsiPath(env.mediaLocation(steps[1].installerFile)),
                                                      ExtraArguments(Some(true), p.installDir)))
      && steps[3] == Unmount(steps[1].installerFile)
      && (!p.keepMedia ==> steps[4] == DeleteFile(steps[1].installerFile))
  {
  }

  /** The resource object; the action fills in `package_url` and `package_checksum` in place. */
  class ConsoleResource {
    var version: string
    var packageUrl: Option<string>
    var packageChecksum: Option<string>
    var acceptEula: Option<bool>
    var installDir: Option<string>
    var keepMedia: bool

    function Props(): Properties
      reads this
    {
      Properties(version, packageUrl, packageChecksum, acceptEula, installDir, keepMedia)
    }

    /** A resource with its two required properties; `keep_media` defaults to false. */
    constructor (version: string, acceptEula: Option<bool>)
      ensures Props() == Properties(version, None, None, acceptEula, None, false)
    {
      this.version := version;
      this.acceptEula := acceptEula;
      packageUrl := None;
      packageChecksum := None;
      installDir := None;
      keepMedia := false;
    }

    /**
     * `perform_console_install`: builds the extra arguments fragment by
     * fragment, then runs msiexec on the MSI under the media path; the run
     * itself is its exit code.
     */
    method PerformConsoleInstall(installMediaPath: string, exitCode: int)
      returns (argumentList: string, failure: Option<Error>)
      ensures argumentList == MsiexecArgumentList(MsiPath(installMediaPath), ExtraArguments(acceptEula, installDir))
      ensures failure.None? <==> exitCode == 0
      ensures failure == InstallFailure(MsiPath(installMediaPath), exitCode)
    {
      var xtra := "";
      if acceptEula.Some? {
        xtra := xtra + EulaFragment(acceptEula.value);
      }
      assert xtra == OptionalEula(acceptEula);
      if installDir.Some? {
        xtra := xtra + InstallDirFragment(installDir.value);
      }
      assert xtra == OptionalEula(acceptEula) + OptionalInstallDir(installDir);
      xtra := xtra + LicenseFragment;
      var installer := MsiPath(installMediaPath);
      argumentList := " /qn /i " + installer + " " + xtra;
      failure := InstallFailure(installer, exitCode);
    }

    /**
     * Lines 43-63 of `action :install`: the OS check, the up-to-date decision,
     * the .NET release and the EULA, in that order. Some(outcome) when one of
     * them ends the action.
     */
    method CheckPrerequisites(env: Environment) returns (stop: Option<Outcome>)
      ensures stop == Gate(Props(), env)
    {
      if env.osCheck.Some? {
        return Some(Failed(env.osCheck.value, []));
      }
      if env.consoleInstalled {
        var requested := ParseVersion(version);
        if requested.None? {
          return Some(Failed(MalformedVersion(version), []));
        }
        var installed := ParseVersion(env.installedVersion);
        if installed.None? {
          return Some(Failed(MalformedVersion(env.installedVersion), []));
        }
        if Compare(requested.value, installed.value) != Greater {
          return Some(Skipped);
        }
        if Compare(requested.value, UpgradeCutoff) != Greater {
          return Some(Skipped);
        }
      }
      if env.dotnetRelease < MinDotNetRelease {
        return Some(Failed(Error(RuntimeError, DotNetMessage), []));
      }
      if acceptEula.None? || acceptEula == Some(false) {
        return Some(Failed(Error(ArgumentError, EulaMessage), []));
      }
      return None;
    }

    /**
     * `action :install`: returns how the action ends, and leaves the URL and
     * checksum looked up from the version when the action got as far as the
     * lookup without a URL.
     */
    method ActionInstall(env: Environment) returns (o: Outcome)
      modifies this`packageUrl, this`packageChecksum
      ensures o == InstallAction(old(Props()), env)
      ensures Props() == if Gate(old(Props()), env).None? then ResolvePackage(old(Props()), env) else old(Props())
    {
      var stop := CheckPrerequisites(env);
      if stop.Some? {
        return stop.value;
      }

      LookUpPackage(env);
      o := DeclareSteps(env);
    }

    /** Lines 75-79: fills in a missing URL and checksum from the version tables, in place. */
    method LookUpPackage(env: Environment)
      modifies this`packageUrl, this`packageChecksum
      ensures Props() == ResolvePackage(old(Props()), env)
    {
      if packageUrl.None? {
        packageUrl := env.packageUrlFor(version);
        packageChecksum := env.packageChecksumFor(version);
      }
    }

    /**
     * Lines 65-114 once the URL lookup is done: declares the package directory,
     * raises when there is no URL or no file name, and otherwise declares the
     * fetch, the install, the unmount and, unless `keep_media`, the delete.
     */
    method DeclareSteps(env: Environment) returns (o: Outcome)
      ensures o == Plan(Props(), env)
    {
      var saveDir := PackageSaveDir(env);
      var steps := [CreateDirectory(saveDir)];
      if packageUrl.None? {
        return Failed(Error(ArgumentError, NoPackageUrlMessage), steps);
      }
      var name := PackageName(packageUrl.value);
      if name.None? {
        return Failed(NilJoinError, steps);
      }
      var file := env.cleanPath(FileJoin(saveDir, name.value));
      steps := steps + [Fetch(file, packageUrl.value, packageChecksum)];
      steps := steps + [RunInstaller(MsiexecArgumentList(MsiPath(env.mediaLocation(file)), ExtraArguments(acceptEula, installDir)))];
      steps := steps + [Unmount(file)];
      if keepMedia {
        return Planned(steps);
      }
      steps := steps + [DeleteFile(file)];
      return Planned(steps);
    }
  }
}

=== FILE: strings.dfy ===
/**
 * String helpers shared by the model: Ruby's `String#split` with a one-character
 * separator, its inverse `join`, decimal formatting and parsing of numbers, and
 * prefix/suffix/substring predicates.
 */
module Strings {
  import opened Wrappers

  // ---------------------------------------------------------------------------
  // Splitting and joining
  // ---------------------------------------------------------------------------

  /**
   * Every field of `s` between occurrences of `sep`, empty fields included
   * (the fields before the first, between two consecutive, and after the last
   * separator). Defined from the right end of the string.
   */
  function SplitAll(s: string, sep: char): (fields: seq<string>)
    ensures |fields| >= 1
    ensures forall i :: 0 <= i < |fields| ==> sep !in fields[i]
    decreases |s|
  {
    if s == [] then [[]]
    else
      var init := SplitAll(s[..|s| - 1], sep);
      if s[|s| - 1] == sep then init + [[]]
      else init[..|init| - 1] + [init[|init| - 1] + [s[|s| - 1]]]
  }

  /** The fields glued back together with `sep` between consecutive ones. */
  function Join(fields: seq<string>, sep: char): string
    requires |fields| >= 1
  {
    if |fields| == 1 then fields[0]
    else Join(fields[..|fields| - 1], sep) + [sep] + fields[|fields| - 1]
  }

  /** Drops the empty fields at the end of a field list, as Ruby's `split` does. */
  function DropTrailingEmpty(fields: seq<string>): (r: seq<string>)
    ensures |r| <= |fields| && r == fields[..|r|]
    ensures r == [] || r[|r| - 1] != []
    ensures forall i :: |r| <= i < |fields| ==> fields[i] == []
  {
    if fields == [] then []
    else if fields[|fields| - 1] == [] then DropTrailingEmpty(fields[..|fields| - 1])
    else fields
  }

  /** Ruby's `s.split(sep)` for a one-character separator other than a space. */
  function RubySplit(s: string, sep: char): seq<string>
  {
    DropTrailingEmpty(SplitAll(s, sep))
  }

  /** Ruby's `Array#last`: nil on an empty array. */
  function Last<T>(xs: seq<T>): Option<T>
  {
    if xs == [] then None else Some(xs[|xs| - 1])
  }

  /** Splitting off one more field after a separator adds exactly that field. */
  lemma {:induction false} SplitAppendField(a: string, b: string, sep: char)
    requires sep !in b
    ensures SplitAll(a + [sep] + b, sep) == SplitAll(a, sep) + [b]
    decreases |b|
  {
    var s := a + [sep] + b;
    if b == [] {
      assert s[..|s| - 1] == a;
    } else {
      var b' := b[..|b| - 1];
      assert s[..|s| - 1] == a + [sep] + b';
      assert s[|s| - 1] == b[|b| - 1];
      SplitAppendField(a, b', sep);
      assert b' + [b[|b| - 1]] == b;
    }
  }

  /** A string without the separator is a single field. */
  lemma {:induction false} SplitWithoutSeparator(b: string, sep: char)
    requires sep !in b
    ensures SplitAll(b, sep) == [b]
    decreases |b|
  {
    if b != [] {
      var b' := b[..|b| - 1];
      SplitWithoutSeparator(b', sep);
      assert b' + [b[|b| - 1]] == b;
    }
  }

  /** Splitting undoes joining, as long as no field holds the separator. */
  lemma {:induction false} SplitJoin(fields: seq<string>, sep: char)
    requires |fields| >= 1
    requires forall i :: 0 <= i < |fields| ==> sep !in fields[i]
    ensures SplitAll(Join(fields, sep), sep) == fields
    decreases |fields|
  {
    if |fields| == 1 {
      SplitWithoutSeparator(fields[0], sep);
    } else {
      var init := fields[..|fields| - 1];
      SplitJoin(init, sep);
      SplitAppendField(Join(init, sep), fields[|fields| - 1], sep);
      assert init + [fields[|fields| - 1]] == fields;
    }
  }

  /** Joining undoes splitting: no character of the string is lost or added. */
  lemma {:induction false} JoinSplit(s: string, sep: char)
    ensures Join(SplitAll(s, sep), sep) == s
    decreases |s|
  {
    if s != [] {
      var s', c := s[..|s| - 1], s[|s| - 1];
      assert s == s' + [c];
      JoinSplit(s', sep);
      if c == sep {
        JoinAppendEmpty(SplitAll(s', sep), sep);
      } else {
        JoinExtendLast(SplitAll(s', sep), sep, c);
      }
    }
  }

  /** An empty last field adds just the separator. */
  lemma JoinAppendEmpty(fields: seq<string>, sep: char)
    requires |fields| >= 1
    ensures Join(fields + [[]], sep) == Join(fields, sep) + [sep]
  {
    assert (fields + [[]])[..|fields|] == fields;
  }

  /** Extending the last field extends the joined string by the same character. */
  lemma JoinExtendLast(fields: seq<string>, sep: char, c: char)
    requires |fields| >= 1
    ensures var n := |fields|;
      Join(fields[..n - 1] + [fields[n - 1] + [c]], sep) == Join(fields, sep) + [c]
  {
    var n := |fields|;
    var ext := fields[..n - 1] + [fields[n - 1] + [c]];
    if n > 1 {
      assert ext[..n - 1] == fields[..n - 1];
    }
  }

  /**
   * The last field of `s` is the suffix after its last separator (all of `s`
   * when there is none).
   */
  lemma {:induction false} LastFieldIsSuffix(s: string, sep: char)
    ensures var f := SplitAll(s, sep)[|SplitAll(s, sep)| - 1];
      && |f| <= |s|
      && f == s[|s| - |f|..]
      && (|f| == |s| || s[|s| - |f| - 1] == sep)
    decreases |s|
  {
    if s != [] {
      LastFieldIsSuffix(s[..|s| - 1], sep);
    }
  }

  /** A trailing separator only adds an empty field, which Ruby's split drops. */
  lemma RubySplitTrailingSeparator(s: string, sep: char)
    requires s != [] && s[|s| - 1] == sep
    ensures RubySplit(s, sep) == RubySplit(s[..|s| - 1], sep)
  {
    var fields := SplitAll(s, sep);
    assert fields[..|fields| - 1] == SplitAll(s[..|s| - 1], sep);
  }

  /** `n` sits at position `k` of `s`, right after a separator or at the start, and only separators follow it. */
  ghost predicate TrailingSegmentAt(s: string, n: string, k: int, sep: char)
  {
    && OccursAt(s, n, k)
    && (k == 0 || s[k - 1] == sep)
    && (forall i :: k + |n| <= i < |s| ==> s[i] == sep)
  }

  /** What `s.split(sep).last` gives, stated without splitting (see SplitLastIsLastSegment). */
  ghost predicate LastSegmentSpec(s: string, sep: char)
  {
    && (Last(RubySplit(s, sep)).None? <==> forall i :: 0 <= i < |s| ==> s[i] == sep)
    && (Last(RubySplit(s, sep)).Some? ==>
          var n := Last(RubySplit(s, sep)).value;
          n != [] && sep !in n && exists k :: TrailingSegmentAt(s, n, k, sep))
  }

  lemma LastSegmentAfterSeparator(s: string, sep: char)
    requires s != [] && s[|s| - 1] == sep
    requires LastSegmentSpec(s[..|s| - 1], sep)
    ensures LastSegmentSpec(s, sep)
  {
    var s' := s[..|s| - 1];
    RubySplitTrailingSeparator(s, sep);
    if Last(RubySplit(s, sep)).Some? {
      var n := Last(RubySplit(s, sep)).value;
      var k :| TrailingSegmentAt(s', n, k, sep);
      assert s[k..k + |n|] == s'[k..k + |n|];
      assert TrailingSegmentAt(s, n, k, sep);
    } else {
      forall i | 0 <= i < |s| ensures s[i] == sep {
        if i < |s'| { assert s[i] == s'[i]; }
      }
    }
  }

  lemma LastSegmentAtEnd(s: string, sep: char)
    requires s != [] && s[|s| - 1] != sep
    ensures LastSegmentSpec(s, sep)
  {
    var fields := SplitAll(s, sep);
    var n := fields[|fields| - 1];
    assert n != [];
    assert RubySplit(s, sep) == fields;
    LastFieldIsSuffix(s, sep);
    assert TrailingSegmentAt(s, n, |s| - |n|, sep);
  }

  /**
   * What `s.split(sep).last` picks: nil exactly when `s` consists of separators
   * only (the empty string included); otherwise a non-empty run without
   * separators that starts `s` or follows a separator, and is followed by
   * nothing but separators -- the last non-empty field.
   */
  lemma {:induction false} SplitLastIsLastSegment(s: string, sep: char)
    ensures Last(RubySplit(s, sep)).None? <==> forall i :: 0 <= i < |s| ==> s[i] == sep
    ensures Last(RubySplit(s, sep)).Some? ==>
      var n := Last(RubySplit(s, sep)).value;
      n != [] && sep !in n && exists k :: TrailingSegmentAt(s, n, k, sep)
    decreases |s|
  {
    if s != [] {
      if s[|s| - 1] == sep {
        SplitLastIsLastSegment(s[..|s| - 1], sep);
        LastSegmentAfterSeparator(s, sep);
      } else {
        LastSegmentAtEnd(s, sep);
      }
    }
  }

  // ---------------------------------------------------------------------------
  // Prefixes, suffixes, substrings
  // ---------------------------------------------------------------------------

  predicate HasPrefix(s: string, p: string)
  {
    |p| <= |s| && s[..|p|] == p
  }

  predicate HasSuffix(s: string, t: string)
  {
    |t| <= |s| && s[|s| - |t|..] == t
  }

  lemma AppendAssociative(a: string, b: string, c: string)
    ensures a + b + c == a + (b + c)
  {
  }

  /** `t` occurs in `s` starting at position `k`. */
  predicate OccursAt(s: string, t: string, k: int)
  {
    0 <= k <= |s| - |t| && s[k..k + |t|] == t
  }

  /** `t` occurs somewhere in `s`. */
  ghost predicate Contains(s: string, t: string)
  {
    exists k :: OccursAt(s, t, k)
  }

  // ---------------------------------------------------------------------------
  // Decimal numbers
  // ---------------------------------------------------------------------------

  predicate IsDigit(c: char)
  {
    '0' <= c <= '9'
  }

  predicate AllDigits(s: string)
  {
    forall i :: 0 <= i < |s| ==> IsDigit(s[i])
  }

  function DigitChar(d: nat): (c: char)
    requires d < 10
    ensures IsDigit(c) && (c as int) - ('0' as int) == d
  {
    ('0' as int + d) as char
  }

  /** The value of a string of decimal digits (zero for the empty string). */
  function DigitsValue(s: string): nat
    requires AllDigits(s)
  {
    if s == [] then 0
    else DigitsValue(s[..|s| - 1]) * 10 + ((s[|s| - 1] as int) - ('0' as int))
  }

  /** The shortest decimal spelling of `n`, as Ruby's and .NET's `to_s` give it. */
  function NatToString(n: nat): (s: string)
    ensures s != [] && AllDigits(s)
  {
    if n < 10 then [DigitChar(n)]
    else NatToString(n / 10) + [DigitChar(n % 10)]
  }

  /** A signed integer in decimal, with a leading '-' when negative. */
  function IntToString(i: int): string
  {
    if i < 0 then "-" + NatToString(-i) else NatToString(i)
  }

  /** Reading back a formatted number gives the number. */
  lemma {:induction false} NatToStringRoundTrip(n: nat)
    ensures DigitsValue(NatToString(n)) == n
  {
    if n >= 10 {
      NatToStringRoundTrip(n / 10);
      var s := NatToString(n);
      assert s[..|s| - 1] == NatToString(n / 10);
    }
  }

  /** A decimal spelling holds only digits and a leading '-'. */
  lemma IntToStringAlphabet(i: int, c: char)
    requires !IsDigit(c) && c != '-'
    ensures c !in IntToString(i)
  {
    var digits := NatToString(if i < 0 then -i else i);
    assert c !in digits by {
      forall j | 0 <= j < |digits| ensures digits[j] != c {
        assert IsDigit(digits[j]);
      }
    }
  }

  /** The delimiter written after a field sits right after it. */
  lemma DelimiterAfter(x: string, r: string, d: char)
    ensures (x + [d] + r)[|x|] == d
  {
  }

  /**
   * When two strings start with fields free of the delimiter `d`, each followed
   * by `d`, and are equal, those leading fields are equal.
   */
  lemma DelimitedPrefixUnique(x: string, y: string, r1: string, r2: string, d: char)
    requires d !in x && d !in y
    requires x + [d] + r1 == y + [d] + r2
    ensures x == y
  {
    if |x| < |y| {
      DelimiterAfter(x, r1, d);
    } else if |y| < |x| {
      DelimiterAfter(y, r2, d);
    } else {
      assert x == (x + [d] + r1)[..|x|];
    }
  }

  /** Different integers are written differently. */
  lemma IntToStringInjective(a: int, b: int)
    requires IntToString(a) == IntToString(b)
    ensures a == b
  {
    var sa, sb := IntToString(a), IntToString(b);
    assert (a < 0) == (sa[0] == '-') && (b < 0) == (sb[0] == '-') by {
      assert IsDigit(NatToString(if a < 0 then -a else a)[0]);
      assert IsDigit(NatToString(if b < 0 then -b else b)[0]);
    }
    if a < 0 {
      assert NatToString(-a) == sa[1..] == NatToString(-b);
      NatToStringRoundTrip(-a);
      NatToStringRoundTrip(-b);
    } else {
      NatToStringRoundTrip(a);
      NatToStringRoundTrip(b);
    }
  }
}

=== FILE: versions.dfy ===
/**
 * Dotted numeric version identifiers, standing in for `Gem::Version` as the
 * console resource uses it: a version is the list of its numeric segments,
 * segments compare as numbers from left to right, and a missing segment counts
 * as zero, so trailing zeros never change the outcome of a comparison.
 */
module Versions {
  import opened Wrappers
  import opened Strings

  /** The numeric segments of a version, most significant first. */
  type Version = seq<nat>

  datatype Ordering = Less | Equal | Greater {
    function Flip(): Ordering
    {
      match this
      case Less => Greater
      case Equal => Equal
      case Greater => Less
    }
  }

  /** Leading segment, zero once the segments run out. */
  function Head(v: Version): nat
  {
    if v == [] then 0 else v[0]
  }

  function Tail(v: Version): Version
  {
    if v == [] then [] else v[1..]
  }

  /** `a <=> b`: segment by segment, numerically, the shorter one padded with zeros. */
  function Compare(a: Version, b: Version): Ordering
    decreases |a| + |b|
  {
    if a == [] && b == [] then Equal
    else if Head(a) < Head(b) then Less
    else if Head(a) > Head(b) then Greater
    else Compare(Tail(a), Tail(b))
  }

  lemma {:induction false} CompareReflexive(a: Version)
    ensures Compare(a, a) == Equal
    decreases |a|
  {
    if a != [] {
      CompareReflexive(Tail(a));
    }
  }

  lemma {:induction false} CompareAntisymmetric(a: Version, b: Version)
    ensures Compare(b, a) == Compare(a, b).Flip()
    decreases |a| + |b|
  {
    if !(a == [] && b == []) && Head(a) == Head(b) {
      CompareAntisymmetric(Tail(a), Tail(b));
    }
  }

  lemma {:induction false} CompareTransitive(a: Version, b: Version, c: Version)
    ensures Compare(a, b) != Greater && Compare(b, c) != Greater ==> Compare(a, c) != Greater
    ensures Compare(a, b) == Less && Compare(b, c) != Greater ==> Compare(a, c) == Less
    ensures Compare(a, b) != Greater && Compare(b, c) == Less ==> Compare(a, c) == Less
    decreases |a| + |b| + |c|
  {
    if !(a == [] && b == [] && c == []) && Head(a) == Head(b) == Head(c) {
      CompareTransitive(Tail(a), Tail(b), Tail(c));
    }
  }

  /** A trailing zero segment is insignificant: "9.5" and "9.5.0" compare alike against everything. */
  lemma {:induction false} CompareTrailingZero(a: Version, b: Version)
    ensures Compare(a + [0], b) == Compare(a, b)
    decreases |a| + |b|
  {
    if a != [] {
      assert Tail(a + [0]) == Tail(a) + [0];
      if Head(a) == Head(b) {
        CompareTrailingZero(Tail(a), b[if b == [] then 0 else 1..]);
      }
    } else if b != [] && Head(b) == 0 {
      assert Tail([0]) == [];
    }
  }

  /** No trailing zero segment: the canonical form of a version. */
  predicate IsTrimmed(v: Version)
  {
    v == [] || v[|v| - 1] != 0
  }

  /** The version with its trailing zero segments removed. */
  function Trim(v: Version): (t: Version)
    ensures IsTrimmed(t)
    ensures |t| <= |v| && t == v[..|t|]
    ensures forall i :: |t| <= i < |v| ==> v[i] == 0
  {
    if v == [] then []
    else if v[|v| - 1] == 0 then Trim(v[..|v| - 1])
    else v
  }

  lemma {:induction false} CompareTrimLeft(a: Version, b: Version)
    ensures Compare(Trim(a), b) == Compare(a, b)
    decreases |a|
  {
    if a != [] && a[|a| - 1] == 0 {
      var a' := a[..|a| - 1];
      CompareTrimLeft(a', b);
      CompareTrailingZero(a', b);
      assert a' + [0] == a;
    }
  }

  lemma {:induction false} TrimmedEqual(a: Version, b: Version)
    requires IsTrimmed(a) && IsTrimmed(b)
    requires Compare(a, b) == Equal
    ensures a == b
    decreases |a| + |b|
  {
    if !(a == [] && b == []) {
      TrimmedEqual(Tail(a), Tail(b));
      if a != [] && b != [] {
        assert a == [a[0]] + a[1..] && b == [b[0]] + b[1..];
      }
    }
  }

  /** Two versions are equal exactly when they agree once trailing zeros are removed. */
  lemma EqualIffSameTrimmed(a: Version, b: Version)
    ensures Compare(a, b) == Equal <==> Trim(a) == Trim(b)
  {
    CompareTrimLeft(a, b);
    CompareTrimLeft(b, Trim(a));
    CompareAntisymmetric(Trim(a), b);
    CompareAntisymmetric(Trim(a), Trim(b));
    if Trim(a) == Trim(b) {
      CompareReflexive(Trim(a));
    } else if Compare(a, b) == Equal {
      TrimmedEqual(Trim(a), Trim(b));
    }
  }

  // ---------------------------------------------------------------------------
  // Parsing and formatting
  // ---------------------------------------------------------------------------

  /** The segments of a dotted numeric string, nil on an empty or non-numeric field. */
  function ParseFields(fields: seq<string>): Option<Version>
  {
    if fields == [] then Some([])
    else if fields[0] == [] || !AllDigits(fields[0]) then None
    else match ParseFields(fields[1..])
      case None => None
      case Some(rest) => Some([DigitsValue(fields[0])] + rest)
  }

  /**
   * `Gem::Version.new(s)` restricted to numeric segments: the empty string is
   * version "0"; otherwise every '.'-separated field must be a non-empty run of
   * digits ("1.", ".1" and "1..2" are malformed). Letter and prerelease
   * segments, and surrounding blanks, which `Gem::Version` accepts, are refused
   * here as well.
   */
  function ParseVersion(s: string): Option<Version>
  {
    if s == [] then Some([0]) else ParseFields(SplitAll(s, '.'))
  }

  /** A field `Gem::Version` accepts as a numeric segment. */
  predicate NumericField(f: string)
  {
    f != [] && AllDigits(f)
  }

  /** A parsed field list has one segment per field, each the decimal value of a numeric field. */
  lemma {:induction false} ParseFieldsSound(fields: seq<string>, v: Version)
    requires ParseFields(fields) == Some(v)
    ensures |fields| == |v|
    ensures forall i :: 0 <= i < |v| ==> NumericField(fields[i]) && DigitsValue(fields[i]) == v[i]
  {
    if fields != [] {
      ParseFieldsSound(fields[1..], v[1..]);
      forall i | 1 <= i < |v| ensures NumericField(fields[i]) && DigitsValue(fields[i]) == v[i] {
        assert fields[i] == fields[1..][i - 1];
      }
    }
  }

  /** A field list is refused exactly when one of its fields is not numeric. */
  lemma {:induction false} ParseFieldsRefuses(fields: seq<string>)
    ensures ParseFields(fields).None? <==> exists i :: 0 <= i < |fields| && !NumericField(fields[i])
  {
    if fields != [] {
      ParseFieldsRefuses(fields[1..]);
      if exists i :: 1 <= i < |fields| && !NumericField(fields[i]) {
        var i :| 1 <= i < |fields| && !NumericField(fields[i]);
        assert fields[1..][i - 1] == fields[i];
      }
      if exists j :: 0 <= j < |fields| - 1 && !NumericField(fields[1..][j]) {
        var j :| 0 <= j < |fields| - 1 && !NumericField(fields[1..][j]);
        assert fields[j + 1] == fields[1..][j];
      }
    }
  }

  /**
   * What a successful parse means: the empty string is version 0, and any other
   * string has one numeric '.'-field per segment, read in decimal.
   */
  lemma ParseVersionSound(s: string, v: Version)
    requires ParseVersion(s) == Some(v)
    ensures s == [] ==> v == [0]
    ensures s != [] ==>
      && |SplitAll(s, '.')| == |v|
      && forall i :: 0 <= i < |v| ==> NumericField(SplitAll(s, '.')[i]) && DigitsValue(SplitAll(s, '.')[i]) == v[i]
  {
    if s != [] {
      ParseFieldsSound(SplitAll(s, '.'), v);
    }
  }

  /**
   * Which strings are malformed: exactly the non-empty ones with an empty or
   * non-numeric '.'-field ("1.", ".1", "1..2"; and, in this model only, "1.a"
   * and " ").
   */
  lemma ParseVersionRefuses(s: string)
    ensures ParseVersion(s).None? <==>
      s != [] && exists i :: 0 <= i < |SplitAll(s, '.')| && !NumericField(SplitAll(s, '.')[i])
  {
    if s != [] {
      var fields := SplitAll(s, '.');
      assert ParseVersion(s) == ParseFields(fields);
      ParseFieldsRefuses(fields);
      assert ParseFields(fields).None? <==> exists i :: 0 <= i < |fields| && !NumericField(fields[i]);
      assert ParseVersion(s).None? ==> exists i :: 0 <= i < |SplitAll(s, '.')| && !NumericField(SplitAll(s, '.')[i]);
    }
  }

  /** Each segment in decimal. */
  function FormatFields(v: Version): (fields: seq<string>)
    ensures |fields| == |v|
    ensures forall i :: 0 <= i < |v| ==> fields[i] == NatToString(v[i])
  {
    if v == [] then [] else [NatToString(v[0])] + FormatFields(v[1..])
  }

  /** The canonical dotted spelling of a version: each segment in shortest decimal. */
  function FormatVersion(v: Version): string
    requires v != []
  {
    Join(FormatFields(v), '.')
  }

  lemma {:induction false} ParseFormatFields(v: Version)
    ensures ParseFields(FormatFields(v)) == Some(v)
  {
    if v != [] {
      var fields := FormatFields(v);
      ParseFormatFields(v[1..]);
      NatToStringRoundTrip(v[0]);
      assert fields[0] == NatToString(v[0]);
      assert fields[1..] == FormatFields(v[1..]);
      assert [v[0]] + v[1..] == v;
    }
  }

  /** Parsing a formatted version gives the version back. */
  lemma ParseFormatRoundTrip(v: Version)
    requires v != []
    ensures ParseVersion(FormatVersion(v)) == Some(v)
  {
    var fields := FormatFields(v);
    SplitJoin(fields, '.');
    ParseFormatFields(v);
    assert FormatVersion(v) != [] by {
      JoinNonEmpty(fields, '.');
    }
  }

  lemma {:induction false} JoinNonEmpty(fields: seq<string>, sep: char)
    requires |fields| >= 1 && fields[0] != []
    ensures Join(fields, sep) != []
    decreases |fields|
  {
    if |fields| > 1 {
      JoinNonEmpty(fields[..|fields| - 1], sep);
    }
  }

  // ---------------------------------------------------------------------------
  // Worked examples
  // ---------------------------------------------------------------------------

  /** The literal "9.5.3.0" of the console resource reads as segments 9, 5, 3, 0. */
  lemma ParseCutoffLiteral()
    ensures ParseVersion("9.5.3.0") == Some([9, 5, 3, 0])
  {
    assert FormatFields([9, 5, 3, 0]) == ["9", "5", "3", "0"];
    var f: seq<string> := ["9", "5", "3", "0"];
    assert f[..1] == ["9"] && f[..2][..1] == ["9"] && f[..3][..2] == f[..2] && f[..4][..3] == f[..3];
    assert Join(f[..2], '.') == "9.5";
    assert Join(f[..3], '.') == "9.5.3";
    assert f[..4] == f;
    assert FormatVersion([9, 5, 3, 0]) == "9.5.3.0";
    ParseFormatRoundTrip([9, 5, 3, 0]);
  }

  /** "9.5.3.0" is later than "9.0.0.902". */
  lemma ComparisonExampleGreater()
    ensures ParseVersion("9.0.0.902") == Some([9, 0, 0, 902])
    ensures Compare([9, 5, 3, 0], [9, 0, 0, 902]) == Greater
  {
    assert NatToString(902) == "902" by {
      assert NatToString(90) == "90";
    }
    assert FormatFields([9, 0, 0, 902]) == ["9", "0", "0", "902"];
    var f: seq<string> := ["9", "0", "0", "902"];
    assert f[..1] == ["9"] && f[..2][..1] == ["9"] && f[..3][..2] == f[..2] && f[..4][..3] == f[..3];
    assert Join(f[..2], '.') == "9.0";
    assert Join(f[..3], '.') == "9.0.0";
    assert f[..4] == f;
    assert FormatVersion([9, 0, 0, 902]) == "9.0.0.902";
    ParseFormatRoundTrip([9, 0, 0, 902]);
  }

  /** "1.0" is earlier than "9.5.3.0". */
  lemma ComparisonExampleLess()
    ensures ParseVersion("1.0") == Some([1, 0])
    ensures Compare([1, 0], [9, 5, 3, 0]) == Less
  {
    assert FormatFields([1, 0]) == ["1", "0"];
    assert FormatVersion([1, 0]) == "1.0";
    ParseFormatRoundTrip([1, 0]);
  }
}

=== FILE: windows_helper.dfy ===
/**
 * `win_friendly_path` of the spec helpers: a nil path stays nil, and every
 * '/' of a path becomes '\'. (`File::ALT_SEPARATOR` is '\' on Windows and nil
 * elsewhere, where the helper falls back to '\', so the replacement is '\' on
 * every host.)
 */
module WindowsHelper {
  import opened Wrappers

  const Separator: char := '/'
  const WindowsSeparator: char := '\\'

  /** `s.gsub('/', '\')`: position by position, '/' turns into '\' and nothing else moves. */
  function ReplaceSeparators(s: string): (r: string)
    ensures |r| == |s|
    ensures forall i :: 0 <= i < |s| ==>
      r[i] == (if s[i] == Separator then WindowsSeparator else s[i])
  {
    if s == [] then []
    else
      var c := s[|s| - 1];
      ReplaceSeparators(s[..|s| - 1]) + [if c == Separator then WindowsSeparator else c]
  }

  /** `win_friendly_path(path)`: nil for nil (the `if path` guard), the rewritten path otherwise. */
  function WinFriendlyPath(path: Option<string>): (r: Option<string>)
    ensures r.None? <==> path.None?
    ensures path.Some? ==> |r.value| == |path.value| && Separator !in r.value
  {
    match path
    case None => None
    case Some(p) => Some(ReplaceSeparators(p))
  }

  /** A path without '/' comes back unchanged. */
  lemma WithoutSeparatorUnchanged(p: string)
    requires Separator !in p
    ensures WinFriendlyPath(Some(p)) == Some(p)
  {
    var r := ReplaceSeparators(p);
    forall i | 0 <= i < |p| ensures r[i] == p[i] {
      assert p[i] in p;
    }
    assert r == p;
  }

  /** Rewriting an already rewritten path changes nothing. */
  lemma WinFriendlyPathIdempotent(path: Option<string>)
    ensures WinFriendlyPath(WinFriendlyPath(path)) == WinFriendlyPath(path)
  {
    if path.Some? {
      WithoutSeparatorUnchanged(ReplaceSeparators(path.value));
    }
  }
}

=== FILE: wrappers.dfy ===
/** Option and Result: nil-able values and raised errors of the modelled Ruby code. */
module Wrappers {

  /** A value that may be nil. */
  datatype Option<+T> = None | Some(value: T)

  /** Either a value or the error that was raised instead. */
  datatype Result<+T, +E> = Ok(value: T) | Err(error: E)
}
